=== FILE: README.md ===
# VK chat-menu bot: router and pagination model

This project models the message router of a VK chat-menu bot (`app/handlers.py`). The
bot keeps, per chat peer, which list the peer is viewing and on which page. Each inbound
message is answered with exactly one reply: the main menu, one page of a list, or the
text of one item. The reply comes with a keyboard built from a static content catalog,
eight items per page.

The model follows the code in `app/handlers.py`:
- a page is never clamped: a page past the end shows no items;
- a page may be any integer, since payload pages are not checked. A negative page is not
  rejected and follows Python's negative slice indices: page -1 shows no items, and page -2
  of a list longer than eight items shows some;
- any list number other than 1 selects list 2;
- the text rules that read the peer's list (the page keywords, "search more" and item
  labels: app/handlers.py lines 196, 203, 209 and 216) act only when that list is 1 or 2; the
  start words and the menu captions act for every peer.

Modules, one per component:

- `Wrappers` (wrappers.dfy): `Option`, standing in for Python's `None`.
- `PyText` (pytext.dfy): `str.strip()`, `str.lower()` and the substring test `kw in s`,
  as the router applies them to inbound text.
- `Catalog` (catalog.dfy): the content catalog as a parameter (`Content`), list selection
  by number, and `_find_item_text` as a loop proved against a recursive lookup function.
- `Payload` (payload.dfy): the button commands, the payload dictionary they are written as,
  `_payload_dict` and the router's decision of which command a payload names.
- `Keyboards` (keyboards.dfy): a keyboard builder object, with the methods `Add` and `Row`
  used by the handlers. The three keyboard builders are methods proved equal to layout
  functions, and lemmas state what a list page shows.
- `ConversationState` (state.dfy): the per-peer state and the store object holding
  `USER_STATE`, with `_get_state` and `_set_state`.
- `Router` (router.dfy): the `_show_*` steps and the `router` dispatch as a function
  `Route` from (state, text, payload) to (new state, reply). The `Bot` object runs that
  dispatch step by step against the store, and its `Handle` method is proved to match
  `Route(.., AsWritten)`. The dispatch functions take a `MenuMode`: `AsWritten` is the
  main-menu step the code performs, `Intended` the corrected one from "## Findings". Every
  other step is the same in both modes.

The catalog module `content` is not part of this model. Its lists and interface strings
are the parameter `Content`.

## Model

| member | source | states |
|---|---|---|
| `PyText.StripLeftSuffix` | app/handlers.py:145 | `lstrip()` keeps a suffix of the input that does not start with whitespace |
| `PyText.StripLeftDropsSpaces` | app/handlers.py:145 | everything `lstrip()` drops is whitespace |
| `PyText.StripRightPrefix` | app/handlers.py:145 | `rstrip()` keeps a prefix of the input that does not end with whitespace |
| `PyText.StripRightDropsSpaces` | app/handlers.py:145 | everything `rstrip()` drops is whitespace |
| `PyText.StripIsTrimmedSlice` | app/handlers.py:145 | the stripped text occurs in the original and neither starts nor ends with whitespace |
| `PyText.StripEmptyIffBlank` | app/handlers.py:127 | `strip()` leaves nothing exactly when every character is whitespace (the blank-payload test) |
| `PyText.StripIdempotent` | app/handlers.py:145 | stripping twice equals stripping once |
| `PyText.StripTrimmed` | app/handlers.py:145 | a text with no whitespace at either end is unchanged by `strip()` |
| `PyText.LowerUnchanged` | app/handlers.py:176 | a text of characters that have no lower-case mapping is its own lower case |
| `Catalog.ItemsOf` | app/handlers.py:47 | list 1's items for list number 1, list 2's for any other number (proved in `OtherNumbersShowList2`) |
| `Catalog.ListTitle` | app/handlers.py:87-88 | `_list_title`: list 1's title for 1, list 2's otherwise (proved in `OtherNumbersShowList2`) |
| `Catalog.LookupText` | app/handlers.py:91-96 | the item lookup of `_find_item_text`; its meaning is stated by `LookupTextFirstMatch` and `FindItemText` |
| `Catalog.OtherNumbersShowList2` | app/handlers.py:87-88 | every list number other than 1 gets the items and the title of list 2 |
| `Catalog.LookupTextFirstMatch` | app/handlers.py:91-96 | gives `None` exactly when no item carries the label; otherwise the text of the first item whose label equals the query exactly |
| `Catalog.FindItemText` | app/handlers.py:91-96 | the loop with early return yields the first exact match's text, or `None` |
| `Payload.PayloadDict` | app/handlers.py:115-134 | `_payload_dict`; its outcomes are stated by `PayloadDictCases` |
| `Payload.PayloadDictCases` | app/handlers.py:115-134 | absent or non-string/non-dict payload gives `None`; a dict is returned unchanged; a whitespace-only string, a string that parses to a non-object, or one that fails to parse gives `None`; a string with a non-whitespace character that parses to an object gives that object, and any result from a string is the object it parses to |
| `Payload.DecodeCommand` | app/handlers.py:149-170 | a command is decoded exactly when the dictionary is non-empty and `cmd` is one of the five names; the command carries that name; `list` defaults to 1, `page` to 0, `label` to the empty string |
| `Payload.DecodeEncode` | app/handlers.py:149-173 | the payload written on every button decodes back to the same command |
| `Payload.DecodeEncodedJson` | app/handlers.py:127-130 | the same round trip holds when the payload arrives as a non-blank JSON string |
| `Keyboards.MainMenuLayout` | app/handlers.py:36-43 | the main-menu keyboard; `MainMenuKeyboard` is proved to build it |
| `Keyboards.ItemLayout` | app/handlers.py:79-84 | the item keyboard; `ItemKeyboard` is proved to build it |
| `Keyboards.PageChunk` | app/handlers.py:50-52 | the page's window with Python slice semantics; `PageChunkInside` and `NegativePageWindow` state its contents, `CountListLayout` its size in buttons |
| `Keyboards.ListLayout` | app/handlers.py:46-76 | the list keyboard; `ListKeyboard` is proved to build it and the lemmas below state what it shows |
| `Keyboards.MainMenuKeyboard` | app/handlers.py:36-43 | the built keyboard is the list-1 button, the list-2 button and the link, one per row, carrying `open_list` 1 and 2 |
| `Keyboards.ItemKeyboard` | app/handlers.py:79-84 | the built keyboard is "search more" (`back_to_list` of the same list) over the back-to-menu button |
| `Keyboards.ListKeyboard` | app/handlers.py:46-76 | the loop over the page's items and the `nav_added` flag build exactly the list layout; the builder never closes an empty row |
| `Keyboards.FlattenItemRows` | app/handlers.py:57-59 | the item rows hold one `open_item` button per item of the slice, in catalog order |
| `Keyboards.FlattenListLayout` | app/handlers.py:46-76 | a list keyboard's buttons in order are the item buttons, the navigation buttons, then back-to-menu |
| `Keyboards.PageChunkInside` | app/handlers.py:50-52 | a window that starts inside the list is the slice from `page*PAGE_SIZE` to `end`, at most `PAGE_SIZE` items long |
| `Keyboards.CountListLayout` | app/handlers.py:46-76 | the number of item-opening buttons equals the size of the page's window, on every page |
| `Keyboards.ListPageItems` | app/handlers.py:50-59 | a page starting inside the list shows exactly `min(PAGE_SIZE, total - page*PAGE_SIZE)` item buttons: the items from `page*PAGE_SIZE` on, one per row, in catalog order |
| `Keyboards.ListNavigation` | app/handlers.py:61-75 | Prev (page-1) is present iff `page > 0`; Next (page+1) is present iff `end < total`; both present means they share one row; no row is empty; back-to-menu is the last row and the last button |
| `Keyboards.NavButtonsShown` | app/handlers.py:61-75 | Prev appears among the buttons iff `page > 0`, Next iff `end < total`, and back-to-menu is the last button |
| `Keyboards.ListLayoutRows` | app/handlers.py:61-76 | no row is empty, the last row is back-to-menu, and Prev and Next share one row when both are shown |
| `Keyboards.PageBeyondEnd` | app/handlers.py:50-75 | a page past the end is not clamped: the keyboard is only Prev and back-to-menu |
| `Keyboards.NegativePageWindow` | app/handlers.py:50-52 | a negative page is not rejected: page -1 shows no items, and an earlier page shows the slice Python's negative indices select, counted back from the end |
| `Keyboards.NegativePageExamples` | app/handlers.py:50-52 | page -2 shows items 0-1 of a ten-item list and items 4-11 of a twenty-item list |
| `Keyboards.TenItemList` | app/handlers.py:50-75 | with ten items, page 0 shows items 1-8 and Next without Prev; page 1 shows items 9-10 and Prev without Next |
| `ConversationState.Update` | app/handlers.py:24-29 | the field writes of `_set_state`; the three lemmas below state them |
| `ConversationState.UpdateNothing` | app/handlers.py:24-29 | a write that passes no field leaves the entry unchanged |
| `ConversationState.UpdateTwice` | app/handlers.py:24-29 | two writes equal one write in which the later value of each field wins |
| `ConversationState.UpdateNeverClearsList` | app/handlers.py:24-29 | once a list is set, no `_set_state` call can clear it |
| `ConversationState.StateStore.constructor` | app/handlers.py:16 | the store starts with no entries |
| `ConversationState.StateStore.GetState` | app/handlers.py:32-33 | an unseen peer gets the default `(None, 0)`, which is stored; a known peer's entry is returned and nothing changes |
| `ConversationState.StateStore.SetState` | app/handlers.py:24-29 | creates the entry with the default if needed, overwrites only the fields passed, and leaves every other peer's entry unchanged |
| `Router.MenuStep` | app/handlers.py:99-101 | `_show_main_menu` in both modes; `MenuStepWrites` states what each writes |
| `Router.MenuStepWrites` | app/handlers.py:99-101 | as written only the page is reset to 0 and the list is kept; as intended both fields are reset; the reply is the same; the two differ whenever the peer has a list |
| `Router.ListStep` | app/handlers.py:104-106 | `_show_list`: both fields written, the list title and that page's keyboard |
| `Router.ItemText` | app/handlers.py:110 | the first match's text, or the placeholder when it is missing or empty (stated by `ItemStepReply`) |
| `Router.ItemStep` | app/handlers.py:109-112 | `_show_item`: the list written, the page kept (stated by `ItemStepReply`) |
| `Router.RunCommand` | app/handlers.py:149-173 | the payload branch of `router`; stated by `PayloadCommandWins`, `BackToListShowsStoredPage`, `OpenListThenBackToList`, `CommandIdempotent` |
| `Router.TextRules` | app/handlers.py:176-189 | the first free-text rules of `router`; stated by `TextOutsideListOnlyMenuOrOpen`, `PageKeywords`, `UnmatchedTextShowsMenu` |
| `Router.ListTextRules` | app/handlers.py:191-223 | the list-dependent text rules and the fallback; stated by the same lemmas |
| `Router.Route` | app/handlers.py:139-223 | `router`: a known payload command first, otherwise the text rules on the stripped text |
| `Router.ItemStepReply` | app/handlers.py:109-112 | the reply is the first exact match's text, or the placeholder when the label is missing or the text is empty; the keyboard is the item keyboard; the list is set and the page kept |
| `Router.PayloadCommandWins` | app/handlers.py:149-173 | a payload naming a known command decides the reply and the new state whatever the text |
| `Router.EmptyOrUnknownPayloadFallsThrough` | app/handlers.py:146-176 | an empty dict or an unknown or missing `cmd` behaves as no payload |
| `Router.SurroundingWhitespaceIgnored` | app/handlers.py:145 | without a payload, a message and its stripped form get the same step |
| `Router.ButtonPressRunsItsCommand` | app/handlers.py:149-173 | pressing any text button, with its payload as a dict or as JSON, runs that button's command |
| `Router.BackToListShowsStoredPage` | app/handlers.py:169-173 | `back_to_list` re-renders the stored page of the named list |
| `Router.OpenListThenBackToList` | app/handlers.py:155-173 | `open_list` followed by `back_to_list` shows the same page 0 again |
| `Router.CommandIdempotent` | app/handlers.py:149-173 | repeating any command from the state it produced gives the same state and the same reply |
| `Router.TextOutsideListOnlyMenuOrOpen` | app/handlers.py:176-223 | outside lists 1 and 2, text can only take the main-menu step (of either mode) or open a list at page 0 |
| `Router.PageKeywords` | app/handlers.py:191-204 | in list 1 or 2, text containing "далее" in any case moves to page+1; otherwise text containing "назад" moves to `max(0, page-1)` |
| `Router.TextRulesKeepPageNonNegative` | app/handlers.py:191-204 | from a non-negative page, no text rule moves a peer to a negative page (a negative page sent in a `page` payload is kept, and "далее" from it stays negative) |
| `Router.UnmatchedTextShowsMenu` | app/handlers.py:213-223 | text no rule claims, an item-label miss included, takes the main-menu step; as written the peer keeps its list and goes to page 0, as intended it is reset to `(None, 0)` |
| `Router.CommandReplyWellFormed` | app/handlers.py:149-173 | every command's reply keyboard has rows and no empty row |
| `Router.TextReplyWellFormed` | app/handlers.py:176-189 | every free-text reply's keyboard has rows and no empty row |
| `Router.ListTextReplyWellFormed` | app/handlers.py:191-223 | the same for the rules that read the peer's list |
| `Router.EveryReplyWellFormed` | app/handlers.py:139-223 | every inbound message gets one reply whose keyboard has rows and no empty row |
| `Router.RoutePreservesNoListPageZero` | app/handlers.py:99-112 | a peer in no list stays on page 0 after any message, in either mode |
| `Router.TextRulesNoListPageZero` | app/handlers.py:176-223 | the same for the free-text rules alone |
| `Router.NextKeywordWithoutListShowsMenu` | app/handlers.py:192-197 | "далее" from a peer in no list falls through to the main menu and leaves it in the default state |
| `Router.MalformedPayloadThenStart` | app/handlers.py:127-179 | an undecodable payload is ignored and "/start" takes the main-menu step; as written the peer keeps its list and goes to page 0 |
| `Router.OpenMissingItem` | app/handlers.py:164-167 | `open_item` for a label list 1 lacks replies with the placeholder and list 1's item keyboard |
| `Router.TypedKeywordText` | app/handlers.py:176-189 | text without payload that is already stripped, not a start word and no interface caption reaches the list-dependent rules |
| `Router.NavCaptionsAsText` | app/handlers.py:191-204 | the Next and Prev captions typed without payload page forward and back through the current list |
| `Router.MenuAsWrittenKeepsList` | app/handlers.py:99-101 | as written, pressing a list button, then typing "/start", leaves the peer in that list at page 0, so a later "далее" opens page 1 of it instead of the main menu |
| `Router.MenuLeavesList` | app/handlers.py:99-101 | with the intended main menu the same sequence leaves the peer in `(None, 0)`, so a later "далее" shows the main menu |
| `Router.Bot.constructor` | app/handlers.py:16 | the bot starts with the given catalog and an empty store, the process-wide `USER_STATE = {}` that `register_handlers` (lines 137-139) serves |
| `Router.Bot.ShowMainMenu` | app/handlers.py:99-101 | as written: writes page 0 and keeps the peer's list, and replies with the main menu text and keyboard |
| `Router.Bot.ShowList` | app/handlers.py:104-106 | sets list and page for the peer and replies with the list title and that page's keyboard |
| `Router.Bot.ShowItem` | app/handlers.py:109-112 | sets the list, keeps the page, and replies with the item text or placeholder and the item keyboard |
| `Router.Bot.Handle` | app/handlers.py:139-173 | the peer's new entry and the one reply are those of `Route(.., AsWritten)`; no other peer's entry changes |
| `Router.Bot.HandleText` | app/handlers.py:175-189 | the free-text rules for start words and menu captions, as `TextRules(.., AsWritten)` states |
| `Router.Bot.HandleListText` | app/handlers.py:191-223 | the page keywords, "search more", item labels and the fallback, as `ListTextRules(.., AsWritten)` states |

## Findings

| source | as written | input that shows it | evidently intended | confidence | as-written member | corrected member |
|---|---|---|---|---|---|---|
| app/handlers.py:100 | `_show_main_menu` passes `current_list=None`, which `_set_state` (lines 26-27) reads as "leave unchanged", so only the page is reset | open list 1 (button or text), then "/start", then type "далее": page 1 of list 1 is shown | returning to the main menu leaves every list (`current_list` becomes `None`), so "далее" there falls back to the main menu | high; not executed | `Router.MenuAsWrittenKeepsList` | `Router.MenuLeavesList` |

The router and the `Bot` follow the code (`Router.MenuStep(.., AsWritten)`). The corrected
step is `Router.MenuStep(.., Intended)`, and `Router.Route(.., Intended)` is the router with
only that step changed.

## Left out

- app/main.py (logging setup, bot construction, the long-poll loop) and app/config.py
  (settings loading): process plumbing.
- The vkbottle `Keyboard`, `Text` and `OpenLink` classes are not part of this model. The
  keyboard is a `KeyboardBuilder` holding closed rows and one open row; `Row` on an empty
  open row is a precondition, as the library refuses it. The `one_time`/`inline` flags,
  button colours and the JSON form sent to the platform are not modelled.
- `message.answer` (the asynchronous send) is replaced by the returned `Outbound` value.
  Delivery failures are not modelled.
- `json.loads` is not modelled. A string payload carries its parse outcome (object, other
  JSON value, or failure) as part of the input.
- The `int(...)`/`str(...)` conversions of payload fields are not modelled, and neither are
  their exceptions. Fields are taken as already typed. A non-string `cmd` behaves like an
  unknown command name.
- `message.text` being `None` is the empty string in the model.
- `PyText.Lower`: only ASCII and Cyrillic U+0400-U+042F are case-mapped. Other Unicode
  case mappings (including ones that change a string's length) are not modelled; the bot's
  own keywords are Cyrillic and ASCII.
- Logging calls (lines 132 and 222): observability only.
- Concurrency between messages for the same peer: `router` suspends only at its single
  `await message.answer`, after every state read and write for the message is done. The
  model therefore treats each message as one atomic step.

=== FILE: catalog.dfy ===
/**
 * The content catalog the handlers read (the `content` module, which is not part of
 * this model): two ordered lists of items and the fixed interface strings, all taken
 * as a parameter. Also the list selection by number and the item lookup by label.
 */
module Catalog {
  import opened Wrappers

  /** One catalog entry: its label (the caption of its button; `label` is a Dafny keyword,
      hence `caption`) and the text shown when it is opened. */
  datatype Item = Item(caption: string, text: string)

  /** Everything the handlers take from the `content` module. */
  datatype Content = Content(
    list1Items: seq<Item>,
    list2Items: seq<Item>,
    mainMenuText: string,
    list1Text: string,
    list2Text: string,
    list1Button: string,
    list2Button: string,
    mainUrl: string,
    mainUrlButton: string,
    backToMenu: string,
    searchMore: string)

  /** The items of list `listNo`: list 1 for `1`, list 2 for every other number. */
  function ItemsOf(c: Content, listNo: int): seq<Item> {
    if listNo == 1 then c.list1Items else c.list2Items
  }

  /** `_list_title`: the heading of list `listNo`, with the same selection rule. */
  function ListTitle(c: Content, listNo: int): string {
    if listNo == 1 then c.list1Text else c.list2Text
  }

  /** Every list number other than 1 shows list 2: same title, same items. */
  lemma OtherNumbersShowList2(c: Content, listNo: int)
    requires listNo != 1
    ensures ItemsOf(c, listNo) == ItemsOf(c, 2) && ListTitle(c, listNo) == ListTitle(c, 2)
  {
  }

  /** Item `i` is the first whose label is exactly `query`. */
  ghost predicate IsFirstMatch(items: seq<Item>, query: string, i: int) {
    0 <= i < |items| && items[i].caption == query
    && forall j :: 0 <= j < i ==> items[j].caption != query
  }

  /** The text of the first item labelled exactly `query`, or `None` when there is none. */
  function LookupText(items: seq<Item>, query: string): Option<string> {
    if items == [] then None
    else if items[0].caption == query then Some(items[0].text)
    else LookupText(items[1..], query)
  }

  /** The lookup finds nothing exactly when no item carries the label, and otherwise gives
      the text of the first item that does. */
  lemma {:induction false} LookupTextFirstMatch(items: seq<Item>, query: string)
    ensures var r := LookupText(items, query);
            && (r.None? <==> forall i :: 0 <= i < |items| ==> items[i].caption != query)
            && (r.Some? ==> exists i :: IsFirstMatch(items, query, i) && r.value == items[i].text)
  {
    if items == [] {
    } else if items[0].caption == query {
      assert IsFirstMatch(items, query, 0);
    } else {
      LookupTextFirstMatch(items[1..], query);
      assert forall k :: IsFirstMatch(items[1..], query, k) ==> IsFirstMatch(items, query, k + 1);
      assert forall i :: 1 <= i < |items| ==> items[1..][i - 1] == items[i];
    }
  }

  /** `_find_item_text`: a linear search of list `listNo` that returns at the first exact label match. */
  method FindItemText(c: Content, listNo: int, query: string) returns (r: Option<string>)
    ensures r == LookupText(ItemsOf(c, listNo), query)
  {
    var items := ItemsOf(c, listNo);
    for k := 0 to |items|
      invariant LookupText(items, query) == LookupText(items[k..], query)
    {
      if items[k].caption == query {
        return Some(items[k].text);
      }
      assert items[k..][1..] == items[k + 1..];
    }
    r := None;
  }
}

=== FILE: keyboards.dfy ===
/**
 * The three keyboards the bot sends: the main menu, one page of a list, and an item's
 * detail view. A keyboard is built step by step, as the handlers build one, with a
 * `KeyboardBuilder` whose rows grow by `Add` (a button on the open row) and `Row`
 * (open a new row); each builder method is proved against a layout function that
 * states the finished keyboard.
 */
module Keyboards {
  import opened Wrappers
  import opened Catalog
  import opened Payload

  /** How many items one page of a list shows. */
  const PAGE_SIZE: nat := 8

  const PREV_CAPTION: string := "⬅ Назад"
  const NEXT_CAPTION: string := "Далее ➡"

  /** A reply button: a text button whose payload carries a command, or a link button. */
  datatype Button = TextButton(caption: string, cmd: Command) | LinkButton(caption: string, url: string)

  /** Rows of buttons, top to bottom, each row left to right. */
  type Keyboard = seq<seq<Button>>

  /** The keyboard builder: its rows are the closed rows followed by one open row, which
      starts empty; `Add` puts a button on the open row and `Row` closes it and opens a new
      one, which is refused while the open row is empty. */
  class KeyboardBuilder {
    var closed: Keyboard
    var open: seq<Button>

    /** The rows as the builder holds them, the open row last. */
    function Rows(): Keyboard
      reads this
    {
      closed + [open]
    }

    constructor ()
      ensures closed == [] && open == []
    {
      closed, open := [], [];
    }

    method Add(b: Button)
      modifies this
      ensures closed == old(closed) && open == old(open) + [b]
    {
      open := open + [b];
    }

    method Row()
      requires open != []
      modifies this
      ensures closed == old(closed) + [old(open)] && open == []
    {
      closed, open := closed + [open], [];
    }
  }

  /** A keyboard the platform accepts: at least one row and no empty row. */
  predicate WellFormed(kb: Keyboard) {
    kb != [] && forall i :: 0 <= i < |kb| ==> kb[i] != []
  }

  /** All buttons of a keyboard, row after row. */
  function Flatten(kb: Keyboard): seq<Button> {
    if kb == [] then [] else kb[0] + Flatten(kb[1..])
  }

  lemma {:induction false} FlattenAppend(a: Keyboard, b: Keyboard)
    ensures Flatten(a + b) == Flatten(a) + Flatten(b)
  {
    if a == [] {
      assert a + b == b;
    } else {
      assert (a + b)[0] == a[0];
      assert (a + b)[1..] == a[1..] + b;
      FlattenAppend(a[1..], b);
    }
  }

  function MenuButton(c: Content): Button {
    TextButton(c.backToMenu, Menu)
  }

  function ItemButton(listNo: int, it: Item): Button {
    TextButton(it.caption, OpenItem(listNo, it.caption))
  }

  function PrevButton(listNo: int, page: int): Button {
    TextButton(PREV_CAPTION, Page(listNo, page - 1))
  }

  function NextButton(listNo: int, page: int): Button {
    TextButton(NEXT_CAPTION, Page(listNo, page + 1))
  }

  /** `_main_menu_keyboard`'s keyboard: the two list buttons and the link, one per row. */
  function MainMenuLayout(c: Content): Keyboard {
    [[TextButton(c.list1Button, OpenList(1))],
     [TextButton(c.list2Button, OpenList(2))],
     [LinkButton(c.mainUrlButton, c.mainUrl)]]
  }

  /** `_item_keyboard`'s keyboard: back to the list, then back to the menu. */
  function ItemLayout(c: Content, listNo: int): Keyboard {
    [[TextButton(c.searchMore, BackToList(listNo))], [MenuButton(c)]]
  }

  function Min(a: int, b: int): int {
    if a < b then a else b
  }

  /** Where Python puts a slice bound `i` of a sequence of length `n`: a negative bound
      counts from the end, and the result is clipped to `0..n`. */
  function SliceBound(i: int, n: nat): (r: nat)
    ensures r <= n
  {
    if i < 0 then (if i + n < 0 then 0 else i + n) else Min(i, n)
  }

  /** Python's `s[i:j]`. */
  function PySlice<T>(s: seq<T>, i: int, j: int): seq<T> {
    var a := SliceBound(i, |s|);
    var b := SliceBound(j, |s|);
    if a < b then s[a..b] else []
  }

  /** The end of page `page`'s window over `total` items (`end` in `_list_keyboard`). */
  function WindowEnd(total: nat, page: int): int {
    Min(page * PAGE_SIZE + PAGE_SIZE, total)
  }

  /** The items page `page` shows (`chunk` in `_list_keyboard`). */
  function PageChunk(items: seq<Item>, page: int): seq<Item> {
    PySlice(items, page * PAGE_SIZE, WindowEnd(|items|, page))
  }

  /** One row per item, each holding that item's button. */
  function ItemRows(listNo: int, chunk: seq<Item>): (r: Keyboard)
    ensures |r| == |chunk|
  {
    seq(|chunk|, i requires 0 <= i < |chunk| => [ItemButton(listNo, chunk[i])])
  }

  /** The navigation row: Prev when the page is past the first, Next when items follow. */
  function NavRow(listNo: int, page: int, hasNext: bool): seq<Button> {
    (if page > 0 then [PrevButton(listNo, page)] else [])
    + (if hasNext then [NextButton(listNo, page)] else [])
  }

  /** `_list_keyboard`'s keyboard: the page's items, the navigation row when it is not
      empty, and the back-to-menu button. */
  function ListLayout(c: Content, listNo: int, page: int): Keyboard {
    var items := ItemsOf(c, listNo);
    var nav := NavRow(listNo, page, WindowEnd(|items|, page) < |items|);
    ItemRows(listNo, PageChunk(items, page)) + (if nav == [] then [] else [nav]) + [[MenuButton(c)]]
  }

  /** `_main_menu_keyboard`. */
  method MainMenuKeyboard(c: Content) returns (kb: Keyboard)
    ensures kb == MainMenuLayout(c)
  {
    var b := new KeyboardBuilder();
    b.Add(TextButton(c.list1Button, OpenList(1)));
    assert b.open == [TextButton(c.list1Button, OpenList(1))];
    b.Row();
    b.Add(TextButton(c.list2Button, OpenList(2)));
    assert b.open == [TextButton(c.list2Button, OpenList(2))];
    b.Row();
    assert b.closed == MainMenuLayout(c)[..2];
    b.Add(LinkButton(c.mainUrlButton, c.mainUrl));
    assert b.open == [LinkButton(c.mainUrlButton, c.mainUrl)];
    kb := b.Rows();
  }

  /** `_item_keyboard`. */
  method ItemKeyboard(c: Content, listNo: int) returns (kb: Keyboard)
    ensures kb == ItemLayout(c, listNo)
  {
    var b := new KeyboardBuilder();
    b.Add(TextButton(c.searchMore, BackToList(listNo)));
    assert b.open == [TextButton(c.searchMore, BackToList(listNo))];
    b.Row();
    b.Add(MenuButton(c));
    assert b.open == [MenuButton(c)];
    kb := b.Rows();
  }

  /** `_list_keyboard`: item buttons one per row, then the navigation buttons on one row,
      closed only when one was added, then the back-to-menu button. */
  method ListKeyboard(c: Content, listNo: int, page: int) returns (kb: Keyboard)
    ensures kb == ListLayout(c, listNo, page)
  {
    var items := ItemsOf(c, listNo);
    var total := |items|;
    var start := page * PAGE_SIZE;
    var end := Min(start + PAGE_SIZE, total);
    var chunk := PySlice(items, start, end);
    var b := new KeyboardBuilder();
    for k := 0 to |chunk|
      invariant b.closed == ItemRows(listNo, chunk[..k]) && b.open == []
    {
      b.Add(ItemButton(listNo, chunk[k]));
      assert b.open == [ItemButton(listNo, chunk[k])];
      b.Row();
      assert ItemRows(listNo, chunk[..k + 1]) == ItemRows(listNo, chunk[..k]) + [[ItemButton(listNo, chunk[k])]];
    }
    assert chunk[..|chunk|] == chunk;
    var navAdded := false;
    if page > 0 {
      b.Add(PrevButton(listNo, page));
      navAdded := true;
    }
    if end < total {
      b.Add(NextButton(listNo, page));
      navAdded := true;
    }
    assert b.open == NavRow(listNo, page, end < total);
    if navAdded {
      b.Row();
    }
    assert b.closed == ItemRows(listNo, chunk) + (if navAdded then [NavRow(listNo, page, end < total)] else []);
    b.Add(MenuButton(c));
    assert b.open == [MenuButton(c)];
    kb := b.Rows();
  }

  /** How many of `bs` open an item. */
  function CountItemButtons(bs: seq<Button>): nat {
    if bs == [] then 0
    else (if bs[0].TextButton? && bs[0].cmd.OpenItem? then 1 else 0) + CountItemButtons(bs[1..])
  }

  lemma {:induction false} CountAppend(a: seq<Button>, b: seq<Button>)
    ensures CountItemButtons(a + b) == CountItemButtons(a) + CountItemButtons(b)
  {
    if a == [] {
      assert a + b == b;
    } else {
      assert (a + b)[1..] == a[1..] + b;
      CountAppend(a[1..], b);
    }
  }

  /** The item buttons of `chunk`, in order. */
  function ItemButtons(listNo: int, chunk: seq<Item>): (r: seq<Button>)
    ensures |r| == |chunk|
  {
    seq(|chunk|, i requires 0 <= i < |chunk| => ItemButton(listNo, chunk[i]))
  }

  /** Flattened, the item rows are the item buttons in catalog order, and all of them open an item. */
  lemma {:induction false} FlattenItemRows(listNo: int, chunk: seq<Item>)
    ensures Flatten(ItemRows(listNo, chunk)) == ItemButtons(listNo, chunk)
    ensures CountItemButtons(ItemButtons(listNo, chunk)) == |chunk|
  {
    if chunk != [] {
      assert ItemRows(listNo, chunk)[1..] == ItemRows(listNo, chunk[1..]);
      assert ItemButtons(listNo, chunk)[1..] == ItemButtons(listNo, chunk[1..]);
      FlattenItemRows(listNo, chunk[1..]);
      assert ItemButtons(listNo, chunk) == [ItemButton(listNo, chunk[0])] + ItemButtons(listNo, chunk[1..]);
    }
  }

  /** A list keyboard flattened: the page's item buttons, the navigation buttons, the menu button. */
  lemma FlattenListLayout(c: Content, listNo: int, page: int)
    ensures var items := ItemsOf(c, listNo);
            Flatten(ListLayout(c, listNo, page))
            == ItemButtons(listNo, PageChunk(items, page))
               + NavRow(listNo, page, WindowEnd(|items|, page) < |items|)
               + [MenuButton(c)]
  {
    var items := ItemsOf(c, listNo);
    var nav := NavRow(listNo, page, WindowEnd(|items|, page) < |items|);
    var rows := ItemRows(listNo, PageChunk(items, page));
    var navRows: Keyboard := if nav == [] then [] else [nav];
    FlattenAppend(rows + navRows, [[MenuButton(c)]]);
    FlattenAppend(rows, navRows);
    FlattenItemRows(listNo, PageChunk(items, page));
    assert Flatten(navRows) == nav by {
      if nav != [] {
        assert Flatten(navRows) == nav + Flatten([]);
      }
    }
    assert Flatten([[MenuButton(c)]]) == [MenuButton(c)] + Flatten([]);
  }

  /** A page that starts inside the list shows `min(PAGE_SIZE, total - start)` item
      buttons: the items from `start` on, in catalog order, one per row. */
  lemma ListPageItems(c: Content, listNo: int, page: int)
    requires 0 <= page && page * PAGE_SIZE < |ItemsOf(c, listNo)|
    ensures var items := ItemsOf(c, listNo);
            var kb := ListLayout(c, listNo, page);
            var start := page * PAGE_SIZE;
            var k := Min(PAGE_SIZE, |items| - start);
            && |kb| > k
            && (forall i :: 0 <= i < k ==> kb[i] == [ItemButton(listNo, items[start + i])])
            && CountItemButtons(Flatten(kb)) == k
  {
    var items := ItemsOf(c, listNo);
    var chunk := PageChunk(items, page);
    PageChunkInside(items, page);
    CountListLayout(c, listNo, page);
    assert ListLayout(c, listNo, page)[..|chunk|] == ItemRows(listNo, chunk);
  }

  /** A window that starts inside the list is the slice from its start, at most a page long. */
  lemma PageChunkInside(items: seq<Item>, page: int)
    requires 0 <= page && page * PAGE_SIZE < |items|
    ensures PageChunk(items, page) == items[page * PAGE_SIZE..WindowEnd(|items|, page)]
    ensures |PageChunk(items, page)| == Min(PAGE_SIZE, |items| - page * PAGE_SIZE)
  {
  }

  /** The item buttons of a list keyboard are exactly those of the page's window. */
  lemma CountListLayout(c: Content, listNo: int, page: int)
    ensures CountItemButtons(Flatten(ListLayout(c, listNo, page)))
            == |PageChunk(ItemsOf(c, listNo), page)|
  {
    var items := ItemsOf(c, listNo);
    var chunk := PageChunk(items, page);
    var nav := NavRow(listNo, page, WindowEnd(|items|, page) < |items|);
    FlattenListLayout(c, listNo, page);
    assert ItemButtons(listNo, chunk) + nav + [MenuButton(c)] == ItemButtons(listNo, chunk) + (nav + [MenuButton(c)]);
    CountAppend(ItemButtons(listNo, chunk), nav + [MenuButton(c)]);
    CountAppend(nav, [MenuButton(c)]);
    FlattenItemRows(listNo, chunk);
    assert CountItemButtons(nav) == 0 by {
      if |nav| == 2 {
        assert nav[1..][1..] == [];
      } else if |nav| == 1 {
        assert nav[1..] == [];
      }
    }
    assert CountItemButtons([MenuButton(c)]) == 0 by {
      assert [MenuButton(c)][1..] == [];
    }
  }

  /** Prev is shown exactly when the page is past the first, Next exactly when items follow
      the window; when both are shown they share one row; no row is empty; and the
      back-to-menu button is always the last row and the last button. */
  lemma ListNavigation(c: Content, listNo: int, page: int)
    ensures var total := |ItemsOf(c, listNo)|;
            var kb := ListLayout(c, listNo, page);
            var bs := Flatten(kb);
            && (PrevButton(listNo, page) in bs <==> page > 0)
            && (NextButton(listNo, page) in bs <==> WindowEnd(total, page) < total)
            && (page > 0 && WindowEnd(total, page) < total
                ==> [PrevButton(listNo, page), NextButton(listNo, page)] in kb)
            && WellFormed(kb)
            && kb[|kb| - 1] == [MenuButton(c)]
            && bs[|bs| - 1] == MenuButton(c)
  {
    NavButtonsShown(c, listNo, page);
    ListLayoutRows(c, listNo, page);
  }

  /** Prev and Next appear among the buttons exactly when the navigation row holds them,
      and the menu button is the last button. */
  lemma NavButtonsShown(c: Content, listNo: int, page: int)
    ensures var total := |ItemsOf(c, listNo)|;
            var bs := Flatten(ListLayout(c, listNo, page));
            && (PrevButton(listNo, page) in bs <==> page > 0)
            && (NextButton(listNo, page) in bs <==> WindowEnd(total, page) < total)
            && bs != [] && bs[|bs| - 1] == MenuButton(c)
  {
    var items := ItemsOf(c, listNo);
    var nav := NavRow(listNo, page, WindowEnd(|items|, page) < |items|);
    var ib := ItemButtons(listNo, PageChunk(items, page));
    FlattenListLayout(c, listNo, page);
    assert forall b :: b in ib ==> b.TextButton? && b.cmd.OpenItem?;
    var bs := ib + nav + [MenuButton(c)];
    assert PrevButton(listNo, page) in bs <==> PrevButton(listNo, page) in nav;
    assert NextButton(listNo, page) in bs <==> NextButton(listNo, page) in nav;
  }

  /** A list keyboard has no empty row, ends with the back-to-menu row, and shows Prev and
      Next side by side when it shows both. */
  lemma ListLayoutRows(c: Content, listNo: int, page: int)
    ensures var total := |ItemsOf(c, listNo)|;
            var kb := ListLayout(c, listNo, page);
            && WellFormed(kb)
            && kb[|kb| - 1] == [MenuButton(c)]
            && (page > 0 && WindowEnd(total, page) < total
                ==> [PrevButton(listNo, page), NextButton(listNo, page)] in kb)
  {
    var items := ItemsOf(c, listNo);
    var chunk := PageChunk(items, page);
    var nav := NavRow(listNo, page, WindowEnd(|items|, page) < |items|);
    var rows := ItemRows(listNo, chunk);
    var kb := ListLayout(c, listNo, page);
    assert forall i :: 0 <= i < |rows| ==> rows[i] != [];
    if page > 0 && WindowEnd(|items|, page) < |items| {
      assert nav == [PrevButton(listNo, page), NextButton(listNo, page)];
      assert kb[|rows|] == nav;
    }
  }

  /** The page is never clamped: a page past the end of the list shows no items, only Prev
      and the back-to-menu button. */
  lemma PageBeyondEnd(c: Content, listNo: int, page: int)
    requires page > 0 && page * PAGE_SIZE >= |ItemsOf(c, listNo)|
    ensures ListLayout(c, listNo, page) == [[PrevButton(listNo, page)], [MenuButton(c)]]
  {
    var items := ItemsOf(c, listNo);
    assert WindowEnd(|items|, page) == |items|;
    assert PageChunk(items, page) == [];
    assert ItemRows(listNo, []) == [];
    assert NavRow(listNo, page, false) == [PrevButton(listNo, page)];
  }

  /** A negative page is not rejected either: its window follows Python's negative slice
      indices. Page -1 shows no items; an earlier page counts back from the end of the list,
      so page -2 of a list longer than eight items shows some. */
  lemma NegativePageWindow(items: seq<Item>, page: int)
    requires page < 0
    ensures page == -1 ==> PageChunk(items, page) == []
    ensures page < -1 ==>
              var from := |items| + page * PAGE_SIZE;
              var to := from + PAGE_SIZE;
              PageChunk(items, page)
              == items[(if from < 0 then 0 else from)..(if to < 0 then 0 else to)]
  {
  }

  /** Page -2 of ten items shows the first two; of twenty items, items 4 to 11. */
  lemma NegativePageExamples(items: seq<Item>)
    ensures |items| == 10 ==> PageChunk(items, -2) == items[0..2]
    ensures |items| == 20 ==> PageChunk(items, -2) == items[4..12]
  {
    NegativePageWindow(items, -2);
  }

  /** A list of ten items: page 0 shows the first eight and Next but no Prev; page 1 shows
      the last two and Prev but no Next. */
  lemma TenItemList(c: Content)
    requires |c.list1Items| == 10
    ensures var kb := ListLayout(c, 1, 0);
            && CountItemButtons(Flatten(kb)) == 8
            && (forall i :: 0 <= i < 8 ==> kb[i] == [ItemButton(1, c.list1Items[i])])
            && NextButton(1, 0) in Flatten(kb) && PrevButton(1, 0) !in Flatten(kb)
    ensures var kb := ListLayout(c, 1, 1);
            && CountItemButtons(Flatten(kb)) == 2
            && kb[0] == [ItemButton(1, c.list1Items[8])] && kb[1] == [ItemButton(1, c.list1Items[9])]
            && PrevButton(1, 1) in Flatten(kb) && NextButton(1, 1) !in Flatten(kb)
  {
    ListPageItems(c, 1, 0);
    ListNavigation(c, 1, 0);
    ListPageItems(c, 1, 1);
    ListNavigation(c, 1, 1);
  }
}

=== FILE: payload.dfy ===
/**
 * Button payloads: the commands buttons carry, the dictionary a command is written as,
 * `_payload_dict` (the three shapes an inbound payload may take) and the router's
 * decision of which command, if any, a payload dictionary names.
 */
module Payload {
  import opened Wrappers
  import opened PyText

  /** A command a button carries in its payload. List and page numbers are plain integers:
      nothing in the handlers restricts them. */
  datatype Command =
    | Menu
    | OpenList(listNo: int)
    | Page(listNo: int, page: int)
    | OpenItem(listNo: int, caption: string)
    | BackToList(listNo: int)

  /** A payload dictionary, seen through the keys the router reads: `cmd`, `list`, `page`
      and `label` (here `caption`), each present or absent, plus how many other keys it has.
      Values are taken as already of the type the router converts them to. */
  datatype Fields = Fields(
    cmd: Option<string>,
    listNo: Option<int>,
    page: Option<int>,
    caption: Option<string>,
    otherKeys: nat)
  {
    /** The dictionary has no keys at all (Python: it is falsy). */
    predicate IsEmpty() {
      cmd.None? && listNo.None? && page.None? && caption.None? && otherKeys == 0
    }
  }

  /** The outcome of decoding a JSON text: an object, some other JSON value, or a failure. */
  datatype Json = JsonObject(fields: Fields) | JsonOther | JsonInvalid

  /** `message.payload` as it arrives: absent, a dictionary, a JSON string (together with
      what the JSON decoder makes of it) or a value of some other type. */
  datatype RawPayload =
    | NoPayload
    | DictPayload(fields: Fields)
    | StrPayload(text: string, parsed: Json)
    | OtherPayload

  /** `_payload_dict`: the payload as a dictionary, or `None`. It never fails. */
  function PayloadDict(p: RawPayload): Option<Fields> {
    match p
    case NoPayload => None
    case DictPayload(f) => Some(f)
    case StrPayload(s, parsed) =>
      if Strip(s) != [] && parsed.JsonObject? then Some(parsed.fields) else None
    case OtherPayload => None
  }

  /** The three outcomes of `_payload_dict`: no payload (or one of another type) gives
      `None`; a dictionary is returned unchanged; a string gives `None` when it is blank,
      when it decodes to something other than an object, or when it does not decode, and
      otherwise the object it decodes to. */
  lemma PayloadDictCases(p: RawPayload)
    ensures var r := PayloadDict(p);
            && (p.NoPayload? || p.OtherPayload? ==> r.None?)
            && (p.DictPayload? ==> r == Some(p.fields))
            && (p.StrPayload? && (forall i :: 0 <= i < |p.text| ==> IsSpace(p.text[i])) ==> r.None?)
            && (p.StrPayload? && !p.parsed.JsonObject? ==> r.None?)
            && (p.StrPayload? && r.Some? ==> p.parsed == JsonObject(r.value))
            && (p.StrPayload? && (exists i :: 0 <= i < |p.text| && !IsSpace(p.text[i])) && p.parsed.JsonObject?
                ==> r == Some(p.parsed.fields))
  {
    if p.StrPayload? {
      StripEmptyIffBlank(p.text);
    }
  }

  /** The five command names the router recognises. */
  predicate IsKnownCmd(name: string) {
    name == "menu" || name == "open_list" || name == "page" || name == "open_item" || name == "back_to_list"
  }

  /** The dictionary a button's payload is written as. */
  function Encode(cmd: Command): Fields {
    match cmd
    case Menu => Fields(Some("menu"), None, None, None, 0)
    case OpenList(l) => Fields(Some("open_list"), Some(l), None, None, 0)
    case Page(l, p) => Fields(Some("page"), Some(l), Some(p), None, 0)
    case OpenItem(l, t) => Fields(Some("open_item"), Some(l), None, Some(t), 0)
    case BackToList(l) => Fields(Some("back_to_list"), Some(l), None, None, 0)
  }

  /** The command a payload names: only a non-empty dictionary whose `cmd` is one of the
      five known names names one; a missing `list` means 1, a missing `page` 0 and a
      missing `label` the empty string. */
  function DecodeCommand(d: Option<Fields>): (r: Option<Command>)
    ensures r.Some? <==> d.Some? && !d.value.IsEmpty() && d.value.cmd.Some? && IsKnownCmd(d.value.cmd.value)
    ensures r.Some? ==> Encode(r.value).cmd == d.value.cmd
    ensures r.Some? && !r.value.Menu? ==> r.value.listNo == d.value.listNo.GetOr(1)
    ensures r.Some? && r.value.Page? ==> r.value.page == d.value.page.GetOr(0)
    ensures r.Some? && r.value.OpenItem? ==> r.value.caption == d.value.caption.GetOr("")
  {
    if d.None? || d.value.IsEmpty() then None
    else
      var f := d.value;
      var l := f.listNo.GetOr(1);
      if f.cmd == Some("menu") then Some(Menu)
      else if f.cmd == Some("open_list") then Some(OpenList(l))
      else if f.cmd == Some("page") then Some(Page(l, f.page.GetOr(0)))
      else if f.cmd == Some("open_item") then Some(OpenItem(l, f.caption.GetOr("")))
      else if f.cmd == Some("back_to_list") then Some(BackToList(l))
      else None
  }

  /** Every command survives being written into a payload and decoded again. */
  lemma DecodeEncode(cmd: Command)
    ensures DecodeCommand(Some(Encode(cmd))) == Some(cmd)
  {
  }

  /** The same holds when the payload travels as a JSON string, as the platform sends it. */
  lemma DecodeEncodedJson(cmd: Command, s: string)
    requires Strip(s) != []
    ensures DecodeCommand(PayloadDict(StrPayload(s, JsonObject(Encode(cmd))))) == Some(cmd)
  {
  }
}

=== FILE: pytext.dfy ===
/**
 * The few Python string operations the router applies to inbound text:
 * `str.strip()`, `str.lower()` and the substring test `kw in s`.
 */
module PyText {

  /** Python's `str.isspace()` for one character. */
  predicate IsSpace(ch: char) {
    ch == ' ' || ('\t' <= ch <= '\r') || ('\U{1c}' <= ch <= '\U{1f}')
    || ch == '\U{85}' || ch == '\U{a0}' || ch == '\U{1680}'
    || ('\U{2000}' <= ch <= '\U{200a}')
    || ch == '\U{2028}' || ch == '\U{2029}' || ch == '\U{202f}' || ch == '\U{205f}' || ch == '\U{3000}'
  }

  /** `s.lstrip()`. */
  function StripLeft(s: string): string {
    if s != [] && IsSpace(s[0]) then StripLeft(s[1..]) else s
  }

  /** `s.rstrip()`. */
  function StripRight(s: string): string {
    if s != [] && IsSpace(s[|s| - 1]) then StripRight(s[..|s| - 1]) else s
  }

  /** `lstrip()` keeps a suffix of `s`, and what it keeps does not start with whitespace. */
  lemma {:induction false} StripLeftSuffix(s: string)
    ensures var r := StripLeft(s);
            && |r| <= |s| && r == s[|s| - |r|..]
            && (r != [] ==> !IsSpace(r[0]))
  {
    if s != [] && IsSpace(s[0]) {
      var t := s[1..];
      StripLeftSuffix(t);
      assert t[|t| - |StripLeft(t)|..] == s[|s| - |StripLeft(t)|..];
    }
  }

  /** `lstrip()` drops only whitespace. */
  lemma {:induction false} StripLeftDropsSpaces(s: string)
    ensures forall i :: 0 <= i < |s| - |StripLeft(s)| ==> IsSpace(s[i])
  {
    if s != [] && IsSpace(s[0]) {
      var t := s[1..];
      StripLeftDropsSpaces(t);
      forall i | 0 <= i < |s| - |StripLeft(s)|
        ensures IsSpace(s[i])
      {
        if i > 0 {
          assert s[i] == t[i - 1];
        }
      }
    }
  }

  /** `rstrip()` keeps a prefix of `s`, and what it keeps does not end with whitespace. */
  lemma {:induction false} StripRightPrefix(s: string)
    ensures var r := StripRight(s);
            && |r| <= |s| && r == s[..|r|]
            && (r != [] ==> !IsSpace(r[|r| - 1]))
  {
    if s != [] && IsSpace(s[|s| - 1]) {
      var t := s[..|s| - 1];
      StripRightPrefix(t);
      assert t[..|StripRight(t)|] == s[..|StripRight(t)|];
    }
  }

  /** `rstrip()` drops only whitespace. */
  lemma {:induction false} StripRightDropsSpaces(s: string)
    ensures forall i :: |StripRight(s)| <= i < |s| ==> IsSpace(s[i])
  {
    if s != [] && IsSpace(s[|s| - 1]) {
      var t := s[..|s| - 1];
      StripRightDropsSpaces(t);
      forall i | |StripRight(s)| <= i < |s|
        ensures IsSpace(s[i])
      {
        if i < |s| - 1 {
          assert s[i] == t[i];
        }
      }
    }
  }

  /** `s.strip()`. */
  function Strip(s: string): string {
    StripRight(StripLeft(s))
  }

  /** `strip()` removes exactly the whitespace at both ends: what is left occurs in `s`,
      and it neither starts nor ends with whitespace. */
  lemma StripIsTrimmedSlice(s: string)
    ensures Contains(s, Strip(s))
    ensures Strip(s) != [] ==> !IsSpace(Strip(s)[0]) && !IsSpace(Strip(s)[|Strip(s)| - 1])
  {
    var l := StripLeft(s);
    var r := StripRight(l);
    StripLeftSuffix(s);
    StripRightPrefix(l);
    var i := |s| - |l|;
    assert Strip(s) == r;
    if r != [] {
      assert r[0] == l[0];
    }
    forall k | 0 <= k < |r|
      ensures s[i + k] == r[k]
    {
      assert r[k] == l[k] == s[i + k];
    }
    assert s[i..i + |r|] == r;
    assert OccursAt(s, i, r);
  }

  /** A string is blank (whitespace only, or empty) exactly when `strip()` leaves nothing. */
  lemma {:induction false} StripEmptyIffBlank(s: string)
    ensures Strip(s) == [] <==> forall i :: 0 <= i < |s| ==> IsSpace(s[i])
  {
    var l := StripLeft(s);
    StripLeftSuffix(s);
    StripLeftDropsSpaces(s);
    StripRightPrefix(l);
    StripRightDropsSpaces(l);
    if l != [] {
      assert !IsSpace(l[0]);
    }
  }

  /** Stripping twice is stripping once. */
  lemma StripIdempotent(s: string)
    ensures Strip(Strip(s)) == Strip(s)
  {
    var r := Strip(s);
    StripIsTrimmedSlice(s);
    if r != [] {
      assert !IsSpace(r[0]);
      assert StripLeft(r) == r;
      assert !IsSpace(r[|r| - 1]);
      assert StripRight(r) == r;
    }
  }

  /** `ch.lower()` for the alphabets the bot's vocabulary uses: ASCII and Cyrillic. */
  function LowerChar(ch: char): char {
    if 'A' <= ch <= 'Z' then (ch as int + 32) as char
    else if '\U{410}' <= ch <= '\U{42f}' then (ch as int + 32) as char
    else if '\U{400}' <= ch <= '\U{40f}' then (ch as int + 80) as char
    else ch
  }

  /** `s.lower()`, character by character. */
  function Lower(s: string): string {
    seq(|s|, i requires 0 <= i < |s| => LowerChar(s[i]))
  }

  /** Python's `kw in s` for strings: `kw` occurs somewhere in `s`. */
  predicate Contains(s: string, kw: string) {
    exists i :: 0 <= i <= |s| - |kw| && OccursAt(s, i, kw)
  }

  /** `kw` occurs in `s` starting at index `i`. */
  predicate OccursAt(s: string, i: int, kw: string) {
    0 <= i <= |s| - |kw| && s[i..i + |kw|] == kw
  }

  /** A string that neither starts nor ends with whitespace is left as it is by `strip()`. */
  lemma StripTrimmed(s: string)
    requires s != [] ==> !IsSpace(s[0]) && !IsSpace(s[|s| - 1])
    ensures Strip(s) == s
  {
  }

  /** A string of characters that `lower()` leaves alone is its own lower case. */
  lemma LowerUnchanged(s: string)
    requires forall i :: 0 <= i < |s| ==> LowerChar(s[i]) == s[i]
    ensures Lower(s) == s
  {
  }
}

=== FILE: router.dfy ===
/**
 * The message router of the handlers module: the state-and-reply steps (`_show_*`),
 * the first-match-wins dispatch of `router` as a function from the peer's state and
 * the inbound message to the new state and the one reply, and the `Bot` object that
 * runs that dispatch step by step against the state store.
 */
module Router {
  import opened Wrappers
  import opened PyText
  import opened Catalog
  import opened Payload
  import opened Keyboards
  import opened ConversationState

  /** The reply when an opened item has no text. */
  const NOT_FOUND_TEXT: string := "Текст не найден для этого пункта."

  /** The one message each inbound message is answered with. */
  datatype Outbound = Outbound(text: string, keyboard: Keyboard)

  /** The peer's new state and the reply. */
  datatype Step = Step(next: State, out: Outbound)

  /** Which main-menu step the router takes: the one `_show_main_menu` performs, or the one
      it evidently intends (see `MenuStep`). */
  datatype MenuMode = AsWritten | Intended

  /** `_show_main_menu`. As written it passes `current_list=None`, which `_set_state` reads
      as "leave as it is", so only the page is reset; as intended the peer leaves every
      list and returns to page 0. The reply is the same either way. */
  function MenuStep(c: Content, st: State, mode: MenuMode): Step {
    var next := if mode == AsWritten then Update(st, None, Some(0)) else Default;
    Step(next, Outbound(c.mainMenuText, MainMenuLayout(c)))
  }

  /** As written the main menu resets only the page; as intended it resets both fields. */
  lemma MenuStepWrites(c: Content, st: State)
    ensures MenuStep(c, st, AsWritten).next == State(st.currentList, 0)
    ensures MenuStep(c, st, Intended).next == Default
    ensures MenuStep(c, st, AsWritten).out == MenuStep(c, st, Intended).out
    ensures st.currentList.Some? ==> MenuStep(c, st, AsWritten).next != MenuStep(c, st, Intended).next
  {
  }

  /** `_show_list`: the peer is now in list `listNo` at `page`; the reply is that page. */
  function ListStep(c: Content, st: State, listNo: int, page: int): Step {
    Step(Update(st, Some(listNo), Some(page)), Outbound(ListTitle(c, listNo), ListLayout(c, listNo, page)))
  }

  /** The text `_show_item` replies with: the item's text, or the placeholder when the item
      is missing or its text is empty. */
  function ItemText(c: Content, listNo: int, caption: string): string {
    var found := LookupText(ItemsOf(c, listNo), caption);
    if found.None? || found.value == "" then NOT_FOUND_TEXT else found.value
  }

  /** `_show_item`: the peer is now in list `listNo`, its page kept. */
  function ItemStep(c: Content, st: State, listNo: int, caption: string): Step {
    Step(Update(st, Some(listNo), None), Outbound(ItemText(c, listNo, caption), ItemLayout(c, listNo)))
  }

  /** The text rules act on a list only when the stored list is 1 or 2. */
  predicate InList(st: State) {
    st.currentList == Some(1) || st.currentList == Some(2)
  }

  function Max(a: int, b: int): int {
    if a < b then b else a
  }

  /** The payload branch of `router`: what each of the five commands does. */
  function RunCommand(c: Content, st: State, cmd: Command, mode: MenuMode): Step {
    match cmd
    case Menu => MenuStep(c, st, mode)
    case OpenList(l) => ListStep(c, st, l, 0)
    case Page(l, p) => ListStep(c, st, l, p)
    case OpenItem(l, t) => ItemStep(c, st, l, t)
    case BackToList(l) => ListStep(c, st, l, st.page)
  }

  /** The start commands, compared with the lower-cased text. */
  predicate IsStartWord(low: string) {
    low == "/start" || low == "start" || low == "начать"
  }

  /** The free-text branch of `router`, on the stripped text, first matching rule first:
      the start words and the menu captions, then the rules that read the peer's list. */
  function TextRules(c: Content, st: State, text: string, mode: MenuMode): Step {
    var low := Lower(text);
    if IsStartWord(low) then MenuStep(c, st, mode)
    else if text == c.list1Button then ListStep(c, st, 1, 0)
    else if text == c.list2Button then ListStep(c, st, 2, 0)
    else if text == c.backToMenu then MenuStep(c, st, mode)
    else ListTextRules(c, st, text, low, mode)
  }

  /** The text rules that depend on the peer's list: the page keywords (case-insensitive
      substrings), "search more", an exact item label, and the main menu as the fallback. */
  function ListTextRules(c: Content, st: State, text: string, low: string, mode: MenuMode): Step {
    if Contains(low, "далее") && InList(st) then ListStep(c, st, st.currentList.value, st.page + 1)
    else if Contains(low, "назад") && InList(st) then ListStep(c, st, st.currentList.value, Max(0, st.page - 1))
    else if text == c.searchMore then
      (if InList(st) then ListStep(c, st, st.currentList.value, st.page) else MenuStep(c, st, mode))
    else if InList(st) && LookupText(ItemsOf(c, st.currentList.value), text).Some? then
      ItemStep(c, st, st.currentList.value, text)
    else MenuStep(c, st, mode)
  }

  /** `router`: a payload naming a known command decides; otherwise the text rules do.
      `Route(.., AsWritten)` is the code; `Route(.., Intended)` differs only in the state
      the main-menu step writes. */
  function Route(c: Content, st: State, message: string, payload: RawPayload, mode: MenuMode): Step {
    match DecodeCommand(PayloadDict(payload))
    case Some(cmd) => RunCommand(c, st, cmd, mode)
    case None => TextRules(c, st, Strip(message), mode)
  }

  /** `_show_item` replies with the text of the first item carrying that exact label, or
      with the placeholder when there is none or its text is empty; the peer moves to the
      list and keeps its page. */
  lemma ItemStepReply(c: Content, st: State, listNo: int, caption: string)
    ensures var s := ItemStep(c, st, listNo, caption);
            var items := ItemsOf(c, listNo);
            && s.next == State(Some(listNo), st.page)
            && s.out.keyboard == ItemLayout(c, listNo)
            && ((forall i :: 0 <= i < |items| ==> items[i].caption != caption) ==> s.out.text == NOT_FOUND_TEXT)
            && (forall i :: IsFirstMatch(items, caption, i) ==>
                  s.out.text == if items[i].text == "" then NOT_FOUND_TEXT else items[i].text)
  {
    var items := ItemsOf(c, listNo);
    var found := LookupText(items, caption);
    LookupTextFirstMatch(items, caption);
    forall i | IsFirstMatch(items, caption, i)
      ensures found == Some(items[i].text)
    {
      var j :| IsFirstMatch(items, caption, j) && found.value == items[j].text;
      assert !(j < i) && !(i < j);
    }
  }

  /** A payload that names a known command decides the reply whatever the text says. */
  lemma PayloadCommandWins(c: Content, st: State, message1: string, message2: string, payload: RawPayload, mode: MenuMode)
    requires DecodeCommand(PayloadDict(payload)).Some?
    ensures Route(c, st, message1, payload, mode) == Route(c, st, message2, payload, mode)
            == RunCommand(c, st, DecodeCommand(PayloadDict(payload)).value, mode)
  {
  }

  /** An empty dictionary, or one without a known `cmd`, counts as no payload at all. */
  lemma EmptyOrUnknownPayloadFallsThrough(c: Content, st: State, message: string, f: Fields, mode: MenuMode)
    requires f.IsEmpty() || f.cmd.None? || !IsKnownCmd(f.cmd.value)
    ensures Route(c, st, message, DictPayload(f), mode) == Route(c, st, message, NoPayload, mode)
  {
  }

  /** Without a payload the router reads the message only through its stripped form, so
      whitespace around it changes nothing. */
  lemma SurroundingWhitespaceIgnored(c: Content, st: State, message: string, mode: MenuMode)
    ensures Route(c, st, message, NoPayload, mode) == Route(c, st, Strip(message), NoPayload, mode)
  {
    StripIdempotent(message);
  }

  /** Pressing a text button sends its command's payload, as a dictionary or as a JSON
      string, and the router runs exactly that command. */
  lemma ButtonPressRunsItsCommand(c: Content, st: State, message: string, b: Button, json: string, mode: MenuMode)
    requires b.TextButton? && Strip(json) != []
    ensures Route(c, st, message, DictPayload(Encode(b.cmd)), mode) == RunCommand(c, st, b.cmd, mode)
    ensures Route(c, st, message, StrPayload(json, JsonObject(Encode(b.cmd))), mode) == RunCommand(c, st, b.cmd, mode)
  {
    DecodeEncode(b.cmd);
    DecodeEncodedJson(b.cmd, json);
  }

  /** `back_to_list` shows the page stored for the peer. */
  lemma BackToListShowsStoredPage(c: Content, st: State, listNo: int, mode: MenuMode)
    ensures var s := RunCommand(c, st, BackToList(listNo), mode);
            s.out == Outbound(ListTitle(c, listNo), ListLayout(c, listNo, st.page))
            && s.next == State(Some(listNo), st.page)
  {
  }

  /** Opening a list and then going back to it shows the same page 0 again. */
  lemma OpenListThenBackToList(c: Content, st: State, listNo: int, mode: MenuMode)
    ensures var s1 := RunCommand(c, st, OpenList(listNo), mode);
            RunCommand(c, s1.next, BackToList(listNo), mode) == s1
  {
  }

  /** Every command is idempotent: running it again from the state it produced gives the
      same state and the same reply. */
  lemma CommandIdempotent(c: Content, st: State, cmd: Command, mode: MenuMode)
    ensures var s1 := RunCommand(c, st, cmd, mode);
            RunCommand(c, s1.next, cmd, mode) == s1
  {
  }

  /** Outside lists 1 and 2 the free text can only show the main menu or open a list at
      page 0: the page keywords, "search more" and item labels do nothing there. */
  lemma TextOutsideListOnlyMenuOrOpen(c: Content, st: State, text: string, mode: MenuMode)
    requires !InList(st)
    ensures var s := TextRules(c, st, text, mode);
            s == MenuStep(c, st, mode) || s == ListStep(c, st, 1, 0) || s == ListStep(c, st, 2, 0)
  {
  }

  /** In list 1 or 2, text containing "далее" in any case (and matching no earlier rule) moves
      one page on, and "назад" one page back but never below page 0. */
  lemma PageKeywords(c: Content, st: State, text: string, mode: MenuMode)
    requires InList(st)
    requires var low := Lower(text);
             !IsStartWord(low)
             && text != c.list1Button && text != c.list2Button && text != c.backToMenu
    ensures var low := Lower(text);
            && (Contains(low, "далее") ==> TextRules(c, st, text, mode) == ListStep(c, st, st.currentList.value, st.page + 1))
            && (!Contains(low, "далее") && Contains(low, "назад") ==>
                  TextRules(c, st, text, mode) == ListStep(c, st, st.currentList.value, Max(0, st.page - 1))
                  && TextRules(c, st, text, mode).next.page >= 0)
  {
  }

  /** The free-text rules never take a peer to a negative page. */
  lemma TextRulesKeepPageNonNegative(c: Content, st: State, text: string, mode: MenuMode)
    requires st.page >= 0
    ensures TextRules(c, st, text, mode).next.page >= 0
  {
  }

  /** Text that no rule claims (an item label that misses included) shows the main menu. As
      written the peer keeps its list and goes to page 0; as intended it leaves the list. */
  lemma UnmatchedTextShowsMenu(c: Content, st: State, text: string, mode: MenuMode)
    requires var low := Lower(text);
             !IsStartWord(low)
             && text != c.list1Button && text != c.list2Button && text != c.backToMenu
             && text != c.searchMore
             && (InList(st) ==> !Contains(low, "далее") && !Contains(low, "назад"))
             && (InList(st) ==> forall i :: 0 <= i < |ItemsOf(c, st.currentList.value)| ==>
                                  ItemsOf(c, st.currentList.value)[i].caption != text)
    ensures TextRules(c, st, text, mode) == MenuStep(c, st, mode)
    ensures TextRules(c, st, text, AsWritten).next == State(st.currentList, 0)
    ensures TextRules(c, st, text, Intended).next == Default
  {
    if InList(st) {
      LookupTextFirstMatch(ItemsOf(c, st.currentList.value), text);
    }
  }

  /** Every inbound message is answered with one message whose keyboard the platform
      accepts: at least one row, none empty. */
  lemma EveryReplyWellFormed(c: Content, st: State, message: string, payload: RawPayload, mode: MenuMode)
    ensures WellFormed(Route(c, st, message, payload, mode).out.keyboard)
  {
    match DecodeCommand(PayloadDict(payload))
    case Some(cmd) => CommandReplyWellFormed(c, st, cmd, mode);
    case None => TextReplyWellFormed(c, st, Strip(message), mode);
  }

  lemma CommandReplyWellFormed(c: Content, st: State, cmd: Command, mode: MenuMode)
    ensures WellFormed(RunCommand(c, st, cmd, mode).out.keyboard)
  {
    match cmd
    case OpenList(l) => ListStepWellFormed(c, st, l, 0);
    case Page(l, p) => ListStepWellFormed(c, st, l, p);
    case BackToList(l) => ListStepWellFormed(c, st, l, st.page);
    case _ =>
  }

  lemma TextReplyWellFormed(c: Content, st: State, text: string, mode: MenuMode)
    ensures WellFormed(TextRules(c, st, text, mode).out.keyboard)
  {
    var low := Lower(text);
    if !IsStartWord(low) && text == c.list1Button {
      ListStepWellFormed(c, st, 1, 0);
    } else if !IsStartWord(low) && text == c.list2Button {
      ListStepWellFormed(c, st, 2, 0);
    } else if !IsStartWord(low) && text != c.backToMenu {
      ListTextReplyWellFormed(c, st, text, low, mode);
    }
  }

  lemma ListTextReplyWellFormed(c: Content, st: State, text: string, low: string, mode: MenuMode)
    ensures WellFormed(ListTextRules(c, st, text, low, mode).out.keyboard)
  {
    if !InList(st) {
    } else if Contains(low, "далее") {
      ListStepWellFormed(c, st, st.currentList.value, st.page + 1);
    } else if Contains(low, "назад") {
      ListStepWellFormed(c, st, st.currentList.value, Max(0, st.page - 1));
    } else if text == c.searchMore {
      ListStepWellFormed(c, st, st.currentList.value, st.page);
    }
  }

  lemma ListStepWellFormed(c: Content, st: State, listNo: int, page: int)
    ensures WellFormed(ListStep(c, st, listNo, page).out.keyboard)
  {
    ListNavigation(c, listNo, page);
  }

  /** A peer outside every list is on page 0, and every reply keeps it so. */
  lemma RoutePreservesNoListPageZero(c: Content, st: State, message: string, payload: RawPayload, mode: MenuMode)
    requires st.currentList.None? ==> st.page == 0
    ensures var s := Route(c, st, message, payload, mode);
            s.next.currentList.None? ==> s.next.page == 0
  {
    match DecodeCommand(PayloadDict(payload))
    case Some(cmd) =>
    case None => TextRulesNoListPageZero(c, st, Strip(message), mode);
  }

  lemma TextRulesNoListPageZero(c: Content, st: State, text: string, mode: MenuMode)
    requires st.currentList.None? ==> st.page == 0
    ensures var s := TextRules(c, st, text, mode);
            s.next.currentList.None? ==> s.next.page == 0
  {
  }

  /** None of the interface captions is the word `w`, so typing `w` reaches the keyword rules. */
  predicate NoCaptionIs(c: Content, w: string) {
    c.list1Button != w && c.list2Button != w && c.backToMenu != w && c.searchMore != w
  }

  /** "далее" typed by a peer that is in no list (one never seen before, say) shows the main
      menu and leaves the peer in the default state. */
  lemma NextKeywordWithoutListShowsMenu(c: Content, mode: MenuMode)
    requires NoCaptionIs(c, "далее")
    ensures Route(c, Default, "далее", NoPayload, mode) == MenuStep(c, Default, mode)
    ensures Route(c, Default, "далее", NoPayload, mode).next == Default
  {
    NextWordFacts();
    TypedKeywordText(c, Default, "далее", mode);
    assert ListTextRules(c, Default, "далее", "далее", mode) == MenuStep(c, Default, mode);
  }

  /** "далее" is already stripped and lower-case, is not a start word, and contains itself. */
  lemma NextWordFacts()
    ensures Strip("далее") == "далее" && Lower("далее") == "далее"
    ensures !IsStartWord("далее") && Contains("далее", "далее")
  {
    StripTrimmed("далее");
    LowerUnchanged("далее");
    assert OccursAt("далее", 0, "далее");
  }

  /** "/start" is already stripped and lower-case, and it is a start word. */
  lemma StartWordFacts()
    ensures Strip("/start") == "/start" && Lower("/start") == "/start" && IsStartWord("/start")
  {
    StripTrimmed("/start");
    LowerUnchanged("/start");
  }

  /** An undecodable payload is ignored: "/start" then shows the main menu. As written the
      peer keeps its list and goes to page 0. */
  lemma MalformedPayloadThenStart(c: Content, st: State, json: string, mode: MenuMode)
    ensures Route(c, st, "/start", StrPayload(json, JsonInvalid), mode) == MenuStep(c, st, mode)
    ensures Route(c, st, "/start", StrPayload(json, JsonInvalid), AsWritten).next == State(st.currentList, 0)
  {
    StartWordFacts();
  }

  /** Opening an item that list 1 does not have replies with the placeholder and the item
      keyboard of list 1. */
  lemma OpenMissingItem(c: Content, st: State, message: string, caption: string, mode: MenuMode)
    requires forall i :: 0 <= i < |c.list1Items| ==> c.list1Items[i].caption != caption
    ensures Route(c, st, message, DictPayload(Fields(Some("open_item"), Some(1), None, Some(caption), 0)), mode).out
            == Outbound(NOT_FOUND_TEXT, ItemLayout(c, 1))
  {
    LookupTextFirstMatch(c.list1Items, caption);
  }

  /** The captions of the Prev and Next buttons, typed as text without a payload, still page
      back and forth through the peer's list. */
  lemma NavCaptionsAsText(c: Content, st: State, mode: MenuMode)
    requires InList(st) && NoCaptionIs(c, NEXT_CAPTION) && NoCaptionIs(c, PREV_CAPTION)
    ensures Route(c, st, NEXT_CAPTION, NoPayload, mode) == ListStep(c, st, st.currentList.value, st.page + 1)
    ensures Route(c, st, PREV_CAPTION, NoPayload, mode) == ListStep(c, st, st.currentList.value, Max(0, st.page - 1))
  {
    NavCaptionFacts();
    TypedKeywordText(c, st, NEXT_CAPTION, mode);
    TypedKeywordText(c, st, PREV_CAPTION, mode);
  }

  /** Text typed without a payload that is neither a start word nor a caption of the
      interface reaches the list rules unchanged. */
  lemma TypedKeywordText(c: Content, st: State, text: string, mode: MenuMode)
    requires Strip(text) == text && !IsStartWord(Lower(text)) && NoCaptionIs(c, text)
    ensures Route(c, st, text, NoPayload, mode) == ListTextRules(c, st, text, Lower(text), mode)
  {
  }

  /** The Next caption lowers to a text containing "далее"; the Prev caption lowers to one
      containing "назад" and not "далее"; neither has whitespace to strip. */
  lemma NavCaptionFacts()
    ensures Strip(NEXT_CAPTION) == NEXT_CAPTION && Strip(PREV_CAPTION) == PREV_CAPTION
    ensures Lower(NEXT_CAPTION) == "далее ➡" && Lower(PREV_CAPTION) == "⬅ назад"
    ensures Contains("далее ➡", "далее") && Contains("⬅ назад", "назад") && !Contains("⬅ назад", "далее")
  {
    StripTrimmed(NEXT_CAPTION);
    StripTrimmed(PREV_CAPTION);
    LowerCaptions();
    assert OccursAt("далее ➡", 0, "далее");
    assert OccursAt("⬅ назад", 2, "назад");
    forall i | 0 <= i <= 2
      ensures !OccursAt("⬅ назад", i, "далее")
    {
      assert "⬅ назад"[i + 2] != "далее"[2];
    }
  }

  lemma LowerCaptions()
    ensures Lower(NEXT_CAPTION) == "далее ➡" && Lower(PREV_CAPTION) == "⬅ назад"
  {
    assert LowerChar('Д') == 'д';
    assert LowerChar('Н') == 'н';
  }

  /** The peer state after pressing a list's button, then typing "/start". */
  function AfterOpenThenStart(c: Content, listNo: int, mode: MenuMode): State {
    var inList := Route(c, Default, "", DictPayload(Encode(OpenList(listNo))), mode).next;
    Route(c, inList, "/start", NoPayload, mode).next
  }

  /** As written, "/start" leaves the peer in the list it had opened, so "далее" typed next
      opens page 1 of that list instead of answering with the main menu. */
  lemma MenuAsWrittenKeepsList(c: Content, listNo: int)
    requires (listNo == 1 || listNo == 2) && NoCaptionIs(c, "далее")
    ensures var afterMenu := AfterOpenThenStart(c, listNo, AsWritten);
            && afterMenu == State(Some(listNo), 0)
            && Route(c, afterMenu, "далее", NoPayload, AsWritten) == ListStep(c, afterMenu, listNo, 1)
            && Route(c, afterMenu, "далее", NoPayload, AsWritten).out != MenuStep(c, afterMenu, AsWritten).out
  {
    DecodeEncode(OpenList(listNo));
    StartWordFacts();
    var afterMenu := AfterOpenThenStart(c, listNo, AsWritten);
    assert afterMenu == State(Some(listNo), 0);
    NextWordFacts();
    TypedKeywordText(c, afterMenu, "далее", AsWritten);
    ListNavigation(c, listNo, 1);
  }

  /** With the main menu as intended, "/start" takes the peer out of its list, so "далее"
      typed next falls back to the main menu. */
  lemma MenuLeavesList(c: Content, listNo: int)
    requires NoCaptionIs(c, "далее")
    ensures var afterMenu := AfterOpenThenStart(c, listNo, Intended);
            && afterMenu == Default
            && Route(c, afterMenu, "далее", NoPayload, Intended) == MenuStep(c, afterMenu, Intended)
  {
    DecodeEncode(OpenList(listNo));
    StartWordFacts();
    assert AfterOpenThenStart(c, listNo, Intended) == Default;
    NextKeywordWithoutListShowsMenu(c, Intended);
  }

  /** The bot: the catalog it serves and the state store of all peers. */
  class Bot {
    const content: Content
    const store: StateStore

    constructor (content: Content)
      ensures this.content == content && fresh(store) && store.entries == map[]
    {
      this.content := content;
      store := new StateStore();
    }

    /** `_show_main_menu`, as written: only the page is written. */
    method ShowMainMenu(peer: int) returns (out: Outbound)
      modifies store
      ensures var s := MenuStep(content, Lookup(old(store.entries), peer), AsWritten);
              store.entries == old(store.entries)[peer := s.next] && out == s.out
    {
      store.SetState(peer, None, Some(0));
      var kb := MainMenuKeyboard(content);
      out := Outbound(content.mainMenuText, kb);
    }

    /** `_show_list`. */
    method ShowList(peer: int, listNo: int, page: int) returns (out: Outbound)
      modifies store
      ensures var s := ListStep(content, Lookup(old(store.entries), peer), listNo, page);
              store.entries == old(store.entries)[peer := s.next] && out == s.out
    {
      store.SetState(peer, Some(listNo), Some(page));
      var kb := ListKeyboard(content, listNo, page);
      out := Outbound(ListTitle(content, listNo), kb);
    }

    /** `_show_item`. */
    method ShowItem(peer: int, listNo: int, caption: string) returns (out: Outbound)
      modifies store
      ensures var s := ItemStep(content, Lookup(old(store.entries), peer), listNo, caption);
              store.entries == old(store.entries)[peer := s.next] && out == s.out
    {
      var found := FindItemText(content, listNo, caption);
      var text := if found.None? || found.value == "" then NOT_FOUND_TEXT else found.value;
      store.SetState(peer, Some(listNo), None);
      var kb := ItemKeyboard(content, listNo);
      out := Outbound(text, kb);
    }

    /** `router`: answers one inbound message with exactly one reply and records the peer's
        new state, as `Route` specifies. */
    method Handle(peer: int, message: string, payload: RawPayload) returns (out: Outbound)
      modifies store
      ensures var s := Route(content, Lookup(old(store.entries), peer), message, payload, AsWritten);
              store.entries == old(store.entries)[peer := s.next] && out == s.out
    {
      var d := PayloadDict(payload);

      if d.Some? && !d.value.IsEmpty() {
        var f := d.value;
        if f.cmd == Some("menu") {
          assert DecodeCommand(d) == Some(Menu);
          out := ShowMainMenu(peer);
          return;
        }
        if f.cmd == Some("open_list") {
          assert DecodeCommand(d) == Some(OpenList(f.listNo.GetOr(1)));
          out := ShowList(peer, f.listNo.GetOr(1), 0);
          return;
        }
        if f.cmd == Some("page") {
          assert DecodeCommand(d) == Some(Page(f.listNo.GetOr(1), f.page.GetOr(0)));
          out := ShowList(peer, f.listNo.GetOr(1), f.page.GetOr(0));
          return;
        }
        if f.cmd == Some("open_item") {
          assert DecodeCommand(d) == Some(OpenItem(f.listNo.GetOr(1), f.caption.GetOr("")));
          out := ShowItem(peer, f.listNo.GetOr(1), f.caption.GetOr(""));
          return;
        }
        if f.cmd == Some("back_to_list") {
          assert DecodeCommand(d) == Some(BackToList(f.listNo.GetOr(1)));
          var listNo := f.listNo.GetOr(1);
          var st := store.GetState(peer);
          out := ShowList(peer, listNo, st.page);
          return;
        }
      }
      assert DecodeCommand(d).None?;
      var text := Strip(message);
      out := HandleText(peer, text);
    }

    /** The free-text half of `router`: the start words and the menu captions. */
    method HandleText(peer: int, text: string) returns (out: Outbound)
      modifies store
      ensures var s := TextRules(content, Lookup(old(store.entries), peer), text, AsWritten);
              store.entries == old(store.entries)[peer := s.next] && out == s.out
    {
      var low := Lower(text);
      if IsStartWord(low) {
        out := ShowMainMenu(peer);
        return;
      }
      if text == content.list1Button {
        out := ShowList(peer, 1, 0);
        return;
      }
      if text == content.list2Button {
        out := ShowList(peer, 2, 0);
        return;
      }
      if text == content.backToMenu {
        out := ShowMainMenu(peer);
        return;
      }
      out := HandleListText(peer, text, low);
    }

    /** The rest of the free-text half: the rules that read the peer's list, then the
        main menu as the fallback. */
    method HandleListText(peer: int, text: string, low: string) returns (out: Outbound)
      modifies store
      ensures var s := ListTextRules(content, Lookup(old(store.entries), peer), text, low, AsWritten);
              store.entries == old(store.entries)[peer := s.next] && out == s.out
    {
      if Contains(low, "далее") {
        var st := store.GetState(peer);
        if InList(st) {
          out := ShowList(peer, st.currentList.value, st.page + 1);
          return;
        }
      }
      if Contains(low, "назад") {
        var st := store.GetState(peer);
        if InList(st) {
          out := ShowList(peer, st.currentList.value, Max(0, st.page - 1));
          return;
        }
      }
      if text == content.searchMore {
        var st := store.GetState(peer);
        if InList(st) {
          out := ShowList(peer, st.currentList.value, st.page);
          return;
        }
        out := ShowMainMenu(peer);
        return;
      }
      var st := store.GetState(peer);
      if InList(st) {
        var found := FindItemText(content, st.currentList.value, text);
        if found.Some? {
          out := ShowItem(peer, st.currentList.value, text);
          return;
        }
      }
      out := ShowMainMenu(peer);
    }
  }
}

=== FILE: state.dfy ===
/**
 * The per-peer conversation state and the process-wide store that holds it
 * (`USER_STATE`, `_get_state`, `_set_state`). Entries are created on first use with
 * the default state and are never removed.
 */
module ConversationState {
  import opened Wrappers

  /** The list a peer is in (whatever list number it was last shown, or none) and its page. */
  datatype State = State(currentList: Option<int>, page: int)

  /** The entry a peer gets on first contact. */
  const Default: State := State(None, 0)

  /** The entry stored for `peer`, or the default a first read would store. */
  function Lookup(entries: map<int, State>, peer: int): State {
    if peer in entries then entries[peer] else Default
  }

  /** The field writes of `_set_state`: a field is written only when a value is passed for it;
      `None` means "leave as it is". */
  function Update(st: State, currentList: Option<int>, page: Option<int>): State {
    State(if currentList.Some? then currentList else st.currentList, page.GetOr(st.page))
  }

  /** Passing nothing changes nothing. */
  lemma UpdateNothing(st: State)
    ensures Update(st, None, None) == st
  {
  }

  /** Two writes in a row are one write in which the later value of each field wins. */
  lemma UpdateTwice(st: State, l1: Option<int>, p1: Option<int>, l2: Option<int>, p2: Option<int>)
    ensures Update(Update(st, l1, p1), l2, p2)
            == Update(st, if l2.Some? then l2 else l1, if p2.Some? then p2 else p1)
  {
  }

  /** Once a peer is in a list, no write through `_set_state` can take it out of every list. */
  lemma UpdateNeverClearsList(st: State, currentList: Option<int>, page: Option<int>)
    requires st.currentList.Some?
    ensures Update(st, currentList, page).currentList.Some?
  {
  }

  /** `USER_STATE`, as an object owning the map from peer id to state. */
  class StateStore {
    var entries: map<int, State>

    constructor ()
      ensures entries == map[]
    {
      entries := map[];
    }

    /** `_get_state`: the peer's entry, created with the default on first read; a read of a
        known peer changes nothing. */
    method GetState(peer: int) returns (st: State)
      modifies this
      ensures st == Lookup(old(entries), peer)
      ensures peer !in old(entries) ==> st == Default
      ensures entries == old(entries)[peer := st]
      ensures peer in old(entries) ==> entries == old(entries)
    {
      if peer !in entries {
        entries := entries[peer := Default];
      }
      st := entries[peer];
    }

    /** `_set_state`: creates the entry if needed, then writes only the fields passed;
        no other peer's entry changes. */
    method SetState(peer: int, currentList: Option<int>, page: Option<int>)
      modifies this
      ensures entries == old(entries)[peer := Update(Lookup(old(entries), peer), currentList, page)]
      ensures forall p :: p in old(entries) && p != peer ==> p in entries && entries[p] == old(entries)[p]
    {
      var st := GetState(peer);
      entries := entries[peer := Update(st, currentList, page)];
    }
  }
}

=== FILE: wrappers.dfy ===
/** The optional value used wherever the source uses Python's `None`. */
module Wrappers {

  datatype Option<+T> = None | Some(value: T) {

    /** The value, or `default` when there is none (Python's `d.get(key, default)`). */
    function GetOr(default: T): T {
      match this
      case Some(v) => v
      case None => default
    }
  }
}
